=== FILE: README.md ===
# CinemaBook booking rules in Dafny

CinemaBook is a movie-ticket booking web app together with a browser-driven
test suite that exercises it. This project models the app's pure rules, which
sit under the React pages. Each rule becomes a Dafny function over immutable
records, and the rules' properties are proved.

- **Seat-map generation** (`MockData`). The rows × seats grid has
  deterministic ids, row letters, seat numbers, seat types and prices. Only
  the available/booked draw is random, and it comes in as an oracle.
- **Seat-map component** (`SeatMap`):
  - when a seat counts as selected;
  - what a click passes to the page's `onSeatSelect` callback;
  - which buttons are disabled;
  - which background colour class each seat gets;
  - the row labels.
- **Catalogue filters** (`HomePage`, `TheatersPage`, `SearchPage`):
  - the home-page movie filter with its genre and language option lists;
  - the split into "Currently Playing" and "Coming Soon";
  - the theatre search with its area picker, and the showtimes a card shows;
  - the full-text movie search with its blank-query rule and status line.
- **Dashboard** (`DashboardPage`):
  - the split of saved bookings into upcoming and past;
  - the booking count and the total spent;
  - the seat line and the history badge;
  - the redirect when nobody is signed in.
- **Booking context** (`BookingContext`). The shared records, and the two
  state transformers `addBooking` and `clearSelection`. React state plus
  `localStorage` become one `Context` value.

Shared helpers:

- `Seqs` models `Array.prototype.filter`, `flatMap` and `Array.from(new Set(…))`. It
  defines subsequence and proves the filter facts the pages rely on.
- `Strings` models the JavaScript string built-ins the pages call:
  - ASCII `toLowerCase`;
  - `indexOf` and `includes`;
  - `trim`, using the ECMAScript whitespace set;
  - `split` and `join`;
  - decimal rendering of integers.

Time and chance come in as parameters:

- **Clock readings.** `Date.now()` is `nowMillis`. The dashboard filters call
  `new Date()` once per booking. The model takes one reading per filter
  (`nowUpcoming`, `nowPast`) for every booking that filter visits.
- **Date parsing.** `new Date(booking.date)` is an oracle
  `timeOf: string -> Option<int>`, where `None` stands for `NaN`.
- **Seat availability.** `Math.random() > 0.3` is the oracle
  `available(row, number)`.

The test suite's own layer (page objects, explicit waits, reporting) is not
modelled. It drives the app through a browser and adds no rule of its own.
Its assertions are used as evidence only. For example, clicking a booked seat
must leave the selected count unchanged, and `SeatMap.BookedClickKeepsSelection`
proves this for any callback.

One point goes beyond the test suite's view. The suite classifies a seat by
its colour class, which leaves the intended meaning of mixed states open. The
model classifies seats by their semantic state and proves which entries of the
conditional class map passed to `cn` are switched on in each state, mixed
states included (`SeatMap.BookedAndSelectedGetsTwoShades`,
`SeatMap.StaleSelectedStatusGetsNoShade`).

## Model

| member | source | states |
|---|---|---|
| MockData.GenerateSeatMap | data/mockData.ts:4-24 | exactly `rows` rows of `seatsPerRow` seats; seat k+1 of row r has row label r, number k+1, id label ++ decimal(k+1); premium iff r < 3, price 300 for premium and 200 otherwise; status is available or booked (never selected), available exactly when the oracle says so |
| MockData.RowLabel | data/mockData.ts:6-14 | row r < 26 is labelled by the single letter r places after 'A' (rows past the alphabet print "undefined") |
| MockData.SeatNumbersAscend | data/mockData.ts:10-15 | within a row, seat numbers start at 1 and strictly increase with position |
| MockData.SeatIdDetermines | data/mockData.ts:13 | for rows up to one past the alphabet, an id of the form label ++ decimal(n) determines both the row and the number (the "undefined" row starts with 'u', which no letter row does) |
| MockData.SeatIdsDistinct | data/mockData.ts:6-15 | with at most 27 rows, two different positions of a generated map never share a seat id |
| MockData.SeatIdsCollideBeyondAlphabet | data/mockData.ts:6-13 | with 28 rows, the first seats of rows 26 and 27 get the same id, so uniqueness fails from 28 rows on |
| SeatMap.IsSeatSelected | components/SeatMap.tsx:14-16 | true exactly when some seat in the selection has the same id |
| SeatMap.HandleSeatClick | components/SeatMap.tsx:18-21 | a booked seat makes no call to `onSeatSelect`; any other seat makes exactly one call, with itself |
| SeatMap.IsDisabled | components/SeatMap.tsx:46 | a seat's button is disabled exactly when a click on it makes no call to `onSeatSelect` |
| SeatMap.BookedClickKeepsSelection | src/test/java/com/cinemabook/tests/SeatSelectionTest.java:236-238 | for every `onSeatSelect`, clicking a booked seat leaves the selection, and hence its size, unchanged |
| SeatMap.FreeClickCallsOnce | components/SeatMap.tsx:20 | clicking a seat that is not booked yields exactly the callback's result for that seat |
| SeatMap.SeatShades | components/SeatMap.tsx:47-65 | each colour class is present iff its condition holds: grey/light-yellow for available unselected regular/premium, green/dark-yellow for selected regular/premium, red for booked |
| SeatMap.ShadeClassesDistinct | components/SeatMap.tsx:51-64 | the five background classes are pairwise different, so a seat's class identifies its shade |
| SeatMap.ExactlyOneShade | components/SeatMap.tsx:48-65 | an available or booked seat that is not booked-and-selected gets exactly one class, the one a status-first decision table picks |
| SeatMap.BookedAndSelectedGetsTwoShades | components/SeatMap.tsx:57-64 | for a booked seat whose id is in the selection, the class map passed to `cn` switches on two background entries, red among them |
| SeatMap.StaleSelectedStatusGetsNoShade | components/SeatMap.tsx:51-61 | a seat whose own status is `selected` but whose id is not in the selection gets no colour class |
| SeatMap.RowLabel | components/SeatMap.tsx:36-38 | a row is labelled with its first seat's row field; an empty row shows nothing |
| SeatMap.GeneratedRowLabels | components/SeatMap.tsx:74-76 | in a generated map, a row's label equals its letter and the row field of every seat in it |
| HomePage.AllGenres | app/page.tsx:19-21 | a genre occurs in the flattened list iff it is a trimmed piece of some movie's genre split on ", " |
| HomePage.AllGenresInCatalogueOrder | app/page.tsx:19-21 | one movie's list is its own pieces, and a catalogue's list is its parts' lists concatenated: the pieces in catalogue order, repeats included |
| HomePage.GenrePieces | app/page.tsx:20 | one piece per part of the genre split on ", " (a single piece iff there is no separator), each the part with whitespace cut from both ends and none left at either end |
| HomePage.Genres | app/page.tsx:18-23 | the options are "all" followed by duplicate-free genres, exactly the trimmed pieces of the catalogue's genre strings |
| HomePage.GenresInFirstOccurrenceOrder | app/page.tsx:22 | the genre options after "all" are the first occurrences of the pieces, in catalogue order |
| HomePage.Languages | app/page.tsx:25-28 | the options are "all" followed by duplicate-free languages, exactly those of the catalogue |
| HomePage.LanguagesInFirstOccurrenceOrder | app/page.tsx:27 | the language options after "all" are the first occurrences of the languages, in catalogue order |
| HomePage.FilterMovies | app/page.tsx:30-39 | the result is a subsequence of the input holding exactly the movies that match the search, genre and language clauses, each as many times as the input holds it |
| HomePage.FilterMoviesNeutral | app/page.tsx:32-35 | with query "", genre "all" and language "all" the filter returns its input unchanged |
| HomePage.FilterMoviesIdempotent | app/page.tsx:30-39 | filtering an already filtered list with the same settings changes nothing |
| HomePage.CurrentlyPlaying | app/page.tsx:41 | the "Currently Playing" tab holds exactly the playing catalogue movies that pass the filter, each as often as the catalogue holds it, in catalogue order |
| HomePage.UpcomingMovies | app/page.tsx:42 | the "Coming Soon" tab holds exactly the upcoming catalogue movies that pass the filter, each as often as the catalogue holds it, in catalogue order |
| HomePage.TabsDisjoint | app/page.tsx:41-42 | no movie is on both tabs |
| HomePage.TabsCoverCatalogue | app/page.tsx:41-42 | with neutral filters, the two tabs together hold as many movies as the catalogue |
| TheatersPage.AreaOptions | app/theaters/page.tsx:17 | the area options are "all" followed by five names, six distinct entries in all |
| TheatersPage.FilterTheaters | app/theaters/page.tsx:19-25 | the result is a subsequence of the theatres holding exactly those whose name or location contains the query and whose location contains the area (or area "all"), ignoring case, each as many times as the input holds it |
| TheatersPage.FilterTheatersNeutral | app/theaters/page.tsx:20-22 | an empty query with area "all" keeps every theatre |
| TheatersPage.AreaNarrows | app/theaters/page.tsx:22-24 | for the same query, a specific area gives a subsequence of the "all" result |
| TheatersPage.ShowtimesShown | app/theaters/page.tsx:122 | a card shows min(4, n) showtimes, the first ones in their original order |
| SearchPage.InitialQuery | app/search/page.tsx:14 | the initial query is the `q` parameter when present, otherwise the empty string |
| SearchPage.SearchMovies | app/search/page.tsx:17-26 | a blank query gives no results; otherwise the result is a subsequence holding exactly the movies whose title, genre, a cast member or director contains the untrimmed query, ignoring case, each as many times as the catalogue holds it |
| SearchPage.WhitespaceQueryFindsNothing | app/search/page.tsx:18 | a query made only of whitespace finds nothing |
| SearchPage.SearchCoversHomeSearch | app/search/page.tsx:20-22 | for a non-blank query, every movie the home page's search clause keeps is found, in the same order |
| SearchPage.ResultMessage | app/search/page.tsx:52-58 | no status line for a blank query; otherwise "Found N result(s) for …" when N > 0 and "No results found for …" when N = 0 |
| SearchPage.ResultMessageCount | app/search/page.tsx:55 | the digits after "Found " read back as the result count |
| SearchPage.NoMatchesMessage | app/search/page.tsx:52-56 | a non-blank query that no movie matches reads "No results found for …" over the search result |
| SearchPage.MatchesMessage | app/search/page.tsx:52-55 | a non-blank query that some movie matches reads "Found …" over the search result |
| SearchPage.ResultWordSingularIffOne | app/search/page.tsx:55 | the word is singular exactly when there is one result |
| DashboardPage.UpcomingBookings | app/dashboard/page.tsx:31-34 | a subsequence of the bookings holding exactly the confirmed ones whose date parses to an instant ≥ now, each as many times as the saved list holds it |
| DashboardPage.PastBookings | app/dashboard/page.tsx:36-39 | a subsequence of the bookings holding exactly the cancelled ones and those whose date parses to an instant < now, each as many times as the saved list holds it |
| DashboardPage.TotalSpent | app/dashboard/page.tsx:92 | 0 for no bookings, the amount itself for one booking, non-negative when every amount is; with TotalSpentAppend this makes it the sum of the amounts |
| DashboardPage.TotalSpentAppend | app/dashboard/page.tsx:92 | the total over a concatenation is the sum of the two totals |
| DashboardPage.TotalSpentCons | app/dashboard/page.tsx:92 | the left fold of `reduce` agrees with the right fold: the first amount plus the total of the rest |
| DashboardPage.TabsPartitionBookings | app/dashboard/page.tsx:31-39 | with readable dates and one clock reading, a booking is upcoming iff it is not past; the tab counts add up to the booking count and the tab totals to the total spent |
| DashboardPage.UnreadableDateOnNeitherTab | app/dashboard/page.tsx:31-39 | a confirmed booking whose date does not parse is on neither tab |
| DashboardPage.BookingBetweenClockReadingsOnBothTabs | app/dashboard/page.tsx:31-39 | a confirmed booking dated between the two filters' clock readings is on both tabs |
| DashboardPage.SeatLine | app/dashboard/page.tsx:157 | no seats give an empty line; one seat gives its row followed by its number |
| DashboardPage.SeatLineSplitsBack | app/dashboard/page.tsx:157 | when no row label contains a comma, splitting the line at ", " recovers each seat's row ++ number, in seat order |
| DashboardPage.PastBadge | app/dashboard/page.tsx:206 | the history badge reads "completed" for a confirmed booking and "cancelled" for a cancelled one |
| DashboardPage.View | app/dashboard/page.tsx:20-43 | without a user the page redirects to login and shows nothing; with one it shows the booking count, both tabs and the total spent over the saved bookings |
| BookingContext.AddBooking | contexts/BookingContext.tsx:92-108 | appends exactly one booking and keeps the earlier ones; the new booking is confirmed, has id "BK" ++ decimal(now), the given timestamp and every caller field unchanged; the same booking is appended to the persisted list; the returned id is its id; the selection is untouched |
| BookingContext.BookingIdEncodesClock | contexts/BookingContext.tsx:93 | the returned id is "BK" followed by digits that read back as the clock reading |
| BookingContext.ClearSelection | contexts/BookingContext.tsx:110-117 | movie, theatre, screen, showtime and date become null and the seats empty (the initial selection); bookings and the persisted list stay as they were |
| BookingContext.ClearSelectionIdempotent | contexts/BookingContext.tsx:110-117 | clearing twice is clearing once |
| BookingContext.ClearKeepsNewBooking | contexts/BookingContext.tsx:101-117 | clearing after adding a booking keeps that booking in memory and in storage |
| Seqs.Filter | app/page.tsx:31 | `filter` returns a subsequence of its input holding exactly the elements that pass, each as many times as the input holds it, and nothing that fails |
| Seqs.FilterCons | app/page.tsx:31 | the head of the input is kept exactly when it passes, in front of the filtered tail |
| Seqs.FilterPartition | app/dashboard/page.tsx:31-39 | when each element passes exactly one of two tests, the two filters' lengths add up to the input's |
| Seqs.FlatMap | app/page.tsx:19-21 | `flatMap` of nothing is empty and of one element is its image; a value is in the result iff it is in the image of some element |
| Seqs.FlatMapAppend | app/page.tsx:19-21 | the `flatMap` of a concatenation is the two `flatMap`s concatenated, so the images appear in input order with their repeats |
| DashboardPage.TotalsPartition | app/dashboard/page.tsx:92 | when each booking passes exactly one of two tests, the totals of the two filters add up to the overall total |
| Seqs.Distinct | app/page.tsx:22 | `Array.from(new Set(xs))` has no duplicates and exactly the elements of `xs` |
| Seqs.DistinctIsFirstOccurrences | app/page.tsx:22 | it keeps element i exactly when that value does not occur before i |
| Strings.IndexOf | app/page.tsx:32 | returns the first position where the needle occurs, or none when it occurs nowhere |
| Strings.Contains | app/page.tsx:32 | `includes` holds iff the needle occurs at some position |
| Strings.Lower | app/page.tsx:32 | `toLowerCase` keeps the length, turns each ASCII upper-case letter into its lower-case letter (code + 32) and keeps every other character |
| Strings.IncludesIgnoringCase | app/page.tsx:32 | the lower-cased needle occurs at some position of the lower-cased haystack |
| Strings.CaseDoesNotMatter | app/page.tsx:32 | lower-casing the haystack or the needle beforehand does not change a case-blind match |
| Strings.Trim | app/search/page.tsx:18 | `trim` returns the slice of its input framed only by whitespace, with no whitespace at either end |
| Strings.BlankIffAllWhitespace | app/search/page.tsx:18 | a string trims to empty exactly when every character is whitespace |
| Strings.Split | app/page.tsx:20 | `split` returns at least one piece, and a single piece exactly when the separator does not occur |
| Strings.JoinSplit | app/page.tsx:20 | joining the pieces of a split with the same separator restores the string |
| Strings.SplitJoin | app/dashboard/page.tsx:157 | splitting a join restores the pieces when no piece contains the separator's first character |
| Strings.Join | app/dashboard/page.tsx:157 | joining no parts gives the empty string and one part gives that part; the general case is pinned down by JoinSplit and SplitJoin |
| Strings.NatToString | data/mockData.ts:13 | the decimal form is non-empty, all digits, with no leading zero |
| Strings.ParseNatToString | data/mockData.ts:13 | reading back the decimal form of n gives n |

## Left out

- The Selenium/TestNG suite is not modelled: page objects, waits, base classes, configuration, screenshots and reports. Its tests are cited only as evidence.
- React rendering, routing (`router.push`, `window.location`), images, links and the movie card component are not modelled. They are presentation only; the redirect is modelled as the outcome `RedirectToLogin`.
- Movie rating, poster, description, trailer, release date and certificate are left out of `Movie`. No modelled rule reads them, and the rating is a float.
- Wall-clock time is not modelled. `Date.now()`, `new Date()` and `toISOString()` are parameters, and `date-fns` formatting is left out.
- Date parsing is not modelled. `new Date(booking.date)` is an oracle, with `None` for an unparsable date (NaN).
- `Math.random()` is not modelled. The seat generator takes the availability draw as an oracle.
- JSON serialisation and `localStorage` are not modelled. The store is the sequence `Context.stored`, and a missing key reads as the empty list.
- Strings.Lower: case folding covers the ASCII letters only. JavaScript's `toLowerCase` also folds the rest of Unicode, so the filters agree with the app on ASCII text only.
- MockData.RowLabel: past row 25, JavaScript's `row` field is the value `undefined`. The model stores the text "undefined", which is what the template literal puts into the id. The seat map's `{row[0]?.row}` would render nothing for that value, while `SeatMap.GeneratedRowLabels` gives "undefined"; no screen in the catalogue has more than 26 rows.
- DashboardPage.TotalSpent: amounts are integers here. JavaScript numbers are floats, but every amount the app computes is a whole number of rupees.
- The mock catalogue itself is left out. Two of its five screens declare seat totals that do not equal rows × seats per row, and nothing in the app relies on those totals.
- Booking ids are not claimed to be unique. Two bookings made in the same millisecond get the same id.
- The seat page's own `onSeatSelect` handler (toggle, ten-seat limit) belongs to the seat page, which is outside this model. The seat-map lemmas hold for any callback.
- DashboardPage.UpcomingBookings: the source reads the clock anew for each booking (`new Date()` inside the callback), so two bookings with the same date can fall on different sides of "now" within one filter. The model uses one reading for the whole filter and cannot express that.
- DashboardPage.PastBookings: same as for UpcomingBookings. One clock reading stands for the per-booking readings inside the callback.
- SeatMap.SeatShades: `cn` comes from `@/lib/utils`, which is not part of this model. `cn` is taken as plain concatenation of the classes whose condition holds. If it is `twMerge(clsx(…))`, conflicting `bg-*` classes collapse to the last one, so a booked, selected seat would render red alone.

=== FILE: booking_context.dfy ===
/**
 The booking context: the records the whole app shares (movie, theatre,
 screen, seat, booking) and the two state transformers every booking flow
 ends with, `addBooking` and `clearSelection`.

 React state and `localStorage` are modelled as one immutable record,
 `Context`, holding the in-memory state and the persisted booking list; each
 operation returns the next record.
 */
module BookingContext {
  import opened Options
  import opened Strings

  datatype MovieStatus = Upcoming | Playing

  /** A catalogue entry; the rating, poster, description, trailer, release date and certificate are display-only and left out. */
  datatype Movie = Movie(
    id: string,
    title: string,
    genre: string,
    duration: nat,
    language: string,
    cast: seq<string>,
    director: string,
    status: MovieStatus)

  datatype SeatType = Regular | Premium

  datatype SeatStatus = Available | Booked | Selected

  datatype Seat = Seat(
    id: string,
    row: string,
    number: nat,
    kind: SeatType,
    status: SeatStatus,
    price: nat)

  datatype Screen = Screen(
    id: string,
    name: string,
    kind: string,
    totalSeats: nat,
    seatMap: seq<seq<Seat>>)

  datatype Theater = Theater(
    id: string,
    name: string,
    location: string,
    distance: string,
    showtimes: seq<string>,
    screens: seq<Screen>)

  datatype BookingStatus = Confirmed | Cancelled

  datatype Booking = Booking(
    id: string,
    movieId: string,
    movieTitle: string,
    theaterId: string,
    theaterName: string,
    screenId: string,
    showtime: string,
    date: string,
    seats: seq<Seat>,
    totalAmount: int,
    bookingDate: string,
    status: BookingStatus)

  /** What a caller hands to `addBooking`: a booking without its id, booking date and status. */
  datatype BookingRequest = BookingRequest(
    movieId: string,
    movieTitle: string,
    theaterId: string,
    theaterName: string,
    screenId: string,
    showtime: string,
    date: string,
    seats: seq<Seat>,
    totalAmount: int)

  /** The provider's React state. */
  datatype BookingState = BookingState(
    selectedMovie: Option<Movie>,
    selectedTheater: Option<Theater>,
    selectedScreen: Option<Screen>,
    selectedShowtime: Option<string>,
    selectedDate: Option<string>,
    selectedSeats: seq<Seat>,
    bookings: seq<Booking>)

  /** The state together with the list saved under the `bookings` key (a missing key reads as the empty list). */
  datatype Context = Context(state: BookingState, stored: seq<Booking>)

  /** The state a fresh provider starts from. */
  const InitialState := BookingState(None, None, None, None, None, [], [])

  /** Every field the caller supplied appears unchanged in the booking. */
  predicate CopiesRequest(b: Booking, req: BookingRequest) {
    && b.movieId == req.movieId
    && b.movieTitle == req.movieTitle
    && b.theaterId == req.theaterId
    && b.theaterName == req.theaterName
    && b.screenId == req.screenId
    && b.showtime == req.showtime
    && b.date == req.date
    && b.seats == req.seats
    && b.totalAmount == req.totalAmount
  }

  /** The selection part of two states agrees (everything except the bookings). */
  predicate SameSelection(a: BookingState, b: BookingState) {
    && a.selectedMovie == b.selectedMovie
    && a.selectedTheater == b.selectedTheater
    && a.selectedScreen == b.selectedScreen
    && a.selectedShowtime == b.selectedShowtime
    && a.selectedDate == b.selectedDate
    && a.selectedSeats == b.selectedSeats
  }

  /** The prefix every booking id carries. */
  const BookingIdPrefix := "BK"

  datatype AddResult = AddResult(next: Context, bookingId: string)

  /**
   `addBooking`: builds a confirmed booking whose id is "BK" followed by the
   clock reading `nowMillis` (`Date.now()`), stamps it with `nowIso`
   (`new Date().toISOString()`), appends it to the in-memory list and to the
   persisted list, and returns its id.
   */
  function AddBooking(ctx: Context, req: BookingRequest, nowMillis: nat, nowIso: string): (r: AddResult)
    ensures var before := ctx.state.bookings;
            var after := r.next.state.bookings;
            && |after| == |before| + 1
            && after[..|before|] == before
            && after[|before|].status == Confirmed
            && after[|before|].id == BookingIdPrefix + NatToString(nowMillis)
            && after[|before|].bookingDate == nowIso
            && CopiesRequest(after[|before|], req)
            && r.bookingId == after[|before|].id
            && r.next.stored == ctx.stored + [after[|before|]]
    ensures SameSelection(r.next.state, ctx.state)
  {
    var id := BookingIdPrefix + NatToString(nowMillis);
    var booking := Booking(
      id, req.movieId, req.movieTitle, req.theaterId, req.theaterName, req.screenId,
      req.showtime, req.date, req.seats, req.totalAmount, nowIso, Confirmed);
    var state := ctx.state.(bookings := ctx.state.bookings + [booking]);
    AddResult(Context(state, ctx.stored + [booking]), id)
  }

  /** The returned id names the clock reading it was made from: stripping "BK" and reading the digits gives it back. */
  lemma BookingIdEncodesClock(ctx: Context, req: BookingRequest, nowMillis: nat, nowIso: string)
    ensures var id := AddBooking(ctx, req, nowMillis, nowIso).bookingId;
            && |id| > 2 && id[..2] == "BK"
            && (forall i :: 2 <= i < |id| ==> IsDigit(id[i]))
            && ParseNat(id[2..]) == nowMillis
  {
    var id := AddBooking(ctx, req, nowMillis, nowIso).bookingId;
    assert id[2..] == NatToString(nowMillis);
    ParseNatToString(nowMillis);
  }

  /** `clearSelection`: forgets the movie, theatre, screen, showtime, date and seats, and keeps every booking. */
  function ClearSelection(ctx: Context): (r: Context)
    ensures r.state.selectedMovie.None? && r.state.selectedTheater.None? && r.state.selectedScreen.None?
    ensures r.state.selectedShowtime.None? && r.state.selectedDate.None?
    ensures r.state.selectedSeats == []
    ensures SameSelection(r.state, InitialState)
    ensures r.state.bookings == ctx.state.bookings
    ensures r.stored == ctx.stored
  {
    Context(ctx.state.(selectedMovie := None, selectedTheater := None, selectedScreen := None,
                       selectedShowtime := None, selectedDate := None, selectedSeats := []),
            ctx.stored)
  }

  /** Clearing twice is clearing once. */
  lemma ClearSelectionIdempotent(ctx: Context)
    ensures ClearSelection(ClearSelection(ctx)) == ClearSelection(ctx)
  {
  }

  /** Clearing after adding a booking keeps that booking, in memory and in storage. */
  lemma ClearKeepsNewBooking(ctx: Context, req: BookingRequest, nowMillis: nat, nowIso: string)
    ensures var added := AddBooking(ctx, req, nowMillis, nowIso);
            var cleared := ClearSelection(added.next);
            && cleared.state.bookings == added.next.state.bookings
            && cleared.stored == added.next.stored
            && cleared.state.bookings[|ctx.state.bookings|].id == added.bookingId
  {
  }
}

=== FILE: dashboard_page.dfy ===
/**
 The dashboard: the split of the saved bookings into "Upcoming" and
 "Booking History", the three stat cards, the seat line of a booking card,
 the history badge, and the redirect for visitors who are not signed in.

 `new Date(booking.date)` is the oracle `timeOf`: the booking's instant in
 milliseconds, or None where the date does not parse (JavaScript's NaN,
 which makes every comparison false). Each filter calls `new Date()` once
 per booking; the model takes one reading per filter, `nowUpcoming` and
 `nowPast`, for all the bookings that filter visits.
 */
module DashboardPage {
  import opened Options
  import opened BookingContext
  import opened Strings
  import opened Seqs

  /** `bookingDate >= now && booking.status === 'confirmed'`. */
  predicate IsUpcoming(b: Booking, now: int, timeOf: string -> Option<int>) {
    match timeOf(b.date)
    case Some(t) => t >= now && b.status == Confirmed
    case None => false
  }

  /** `bookingDate < now || booking.status === 'cancelled'`. */
  predicate IsPast(b: Booking, now: int, timeOf: string -> Option<int>) {
    match timeOf(b.date)
    case Some(t) => t < now || b.status == Cancelled
    case None => b.status == Cancelled
  }

  /** `upcomingBookings`. */
  function UpcomingBookings(bookings: seq<Booking>, now: int, timeOf: string -> Option<int>): (r: seq<Booking>)
    ensures IsSubsequence(r, bookings)
    ensures forall b :: b in r <==> b in bookings && b.status == Confirmed && timeOf(b.date).Some? && timeOf(b.date).value >= now
    ensures forall b :: multiset(r)[b] == if IsUpcoming(b, now, timeOf) then multiset(bookings)[b] else 0
  {
    Filter(bookings, b => IsUpcoming(b, now, timeOf))
  }

  /** `pastBookings`. */
  function PastBookings(bookings: seq<Booking>, now: int, timeOf: string -> Option<int>): (r: seq<Booking>)
    ensures IsSubsequence(r, bookings)
    ensures forall b :: b in r <==> b in bookings && (b.status == Cancelled || (timeOf(b.date).Some? && timeOf(b.date).value < now))
    ensures forall b :: multiset(r)[b] == if IsPast(b, now, timeOf) then multiset(bookings)[b] else 0
  {
    Filter(bookings, b => IsPast(b, now, timeOf))
  }

  /** The "Total Spent" card: `bookings.reduce((sum, b) => sum + b.totalAmount, 0)`, folding from the left. */
  function TotalSpent(bookings: seq<Booking>): (total: int)
    ensures |bookings| == 0 ==> total == 0
    ensures |bookings| == 1 ==> total == bookings[0].totalAmount
    ensures (forall i :: 0 <= i < |bookings| ==> bookings[i].totalAmount >= 0) ==> total >= 0
    decreases |bookings|
  {
    if |bookings| == 0 then 0
    else TotalSpent(bookings[..|bookings| - 1]) + bookings[|bookings| - 1].totalAmount
  }

  /** The total over a concatenation is the sum of the totals. */
  lemma {:induction false} TotalSpentAppend(a: seq<Booking>, b: seq<Booking>)
    ensures TotalSpent(a + b) == TotalSpent(a) + TotalSpent(b)
    decreases |b|
  {
    if |b| > 0 {
      TotalSpentAppend(a, b[..|b| - 1]);
      assert (a + b)[..|a + b| - 1] == a + b[..|b| - 1];
    } else {
      assert a + b == a;
    }
  }

  /** Read from the front: the first amount plus the total of the rest. */
  lemma TotalSpentCons(b: Booking, rest: seq<Booking>)
    ensures TotalSpent([b] + rest) == b.totalAmount + TotalSpent(rest)
  {
    TotalSpentAppend([b], rest);
  }

  /**
   With every date readable and one clock reading for both tabs, each
   booking is on exactly one tab: the counts add up to "Total Bookings" and
   the amounts on the two tabs add up to "Total Spent".
   */
  lemma TabsPartitionBookings(bookings: seq<Booking>, now: int, timeOf: string -> Option<int>)
    requires forall b :: b in bookings ==> timeOf(b.date).Some?
    ensures forall b :: b in bookings ==> (b in UpcomingBookings(bookings, now, timeOf) <==> !IsPast(b, now, timeOf))
    ensures |UpcomingBookings(bookings, now, timeOf)| + |PastBookings(bookings, now, timeOf)| == |bookings|
    ensures TotalSpent(UpcomingBookings(bookings, now, timeOf)) + TotalSpent(PastBookings(bookings, now, timeOf)) == TotalSpent(bookings)
  {
    var up := b => IsUpcoming(b, now, timeOf);
    var past := b => IsPast(b, now, timeOf);
    assert forall b :: b in bookings ==> up(b) != past(b);
    FilterPartition(bookings, up, past);
    TotalsPartition(bookings, up, past);
  }

  /** When every booking passes exactly one of two tests, the totals of the two filters add up. */
  lemma {:induction false} TotalsPartition(bookings: seq<Booking>, p: Booking -> bool, q: Booking -> bool)
    requires forall b :: b in bookings ==> p(b) != q(b)
    ensures TotalSpent(Filter(bookings, p)) + TotalSpent(Filter(bookings, q)) == TotalSpent(bookings)
    decreases |bookings|
  {
    if |bookings| > 0 {
      var x := bookings[0];
      var rest := bookings[1..];
      TotalsPartition(rest, p, q);
      assert bookings == [x] + rest;
      TotalSpentCons(x, rest);
      FilterCons(x, rest, p);
      FilterCons(x, rest, q);
      TotalSpentCons(x, Filter(rest, if p(x) then p else q));
    }
  }

  /** A confirmed booking whose date does not parse shows on neither tab. */
  lemma UnreadableDateOnNeitherTab(b: Booking, now: int, timeOf: string -> Option<int>)
    requires b.status == Confirmed && timeOf(b.date).None?
    ensures UpcomingBookings([b], now, timeOf) == [] && PastBookings([b], now, timeOf) == []
  {
  }

  /**
   The two filters read the clock one after the other; a confirmed booking
   dated between the two readings is on both tabs.
   */
  lemma BookingBetweenClockReadingsOnBothTabs(b: Booking, nowUpcoming: int, nowPast: int, timeOf: string -> Option<int>)
    requires b.status == Confirmed && timeOf(b.date).Some?
    requires nowUpcoming <= timeOf(b.date).value < nowPast
    ensures UpcomingBookings([b], nowUpcoming, timeOf) == [b] && PastBookings([b], nowPast, timeOf) == [b]
  {
  }

  /** `${seat.row}${seat.number}`. */
  function SeatName(s: Seat): string {
    s.row + NatToString(s.number)
  }

  function SeatNames(seats: seq<Seat>): (names: seq<string>)
    ensures |names| == |seats|
    ensures forall i :: 0 <= i < |seats| ==> names[i] == SeatName(seats[i])
  {
    seq(|seats|, i requires 0 <= i < |seats| => SeatName(seats[i]))
  }

  /** The "Seats:" line of a booking card: the seat names joined by ", ". */
  function SeatLine(seats: seq<Seat>): (line: string)
    ensures |seats| == 0 ==> line == []
    ensures |seats| == 1 ==> line == SeatName(seats[0])
  {
    Join(SeatNames(seats), ", ")
  }

  /**
   When no row label contains a comma, splitting the seat line at ", "
   gives back each seat's name, in seat order.
   */
  lemma SeatLineSplitsBack(seats: seq<Seat>)
    requires |seats| > 0
    requires forall i :: 0 <= i < |seats| ==> ',' !in seats[i].row
    ensures Split(SeatLine(seats), ", ") == SeatNames(seats)
  {
    var names := SeatNames(seats);
    forall k | 0 <= k < |names|
      ensures ", "[0] !in names[k]
    {
      DigitsHaveNoComma(seats[k].number);
    }
    SplitJoin(names, ", ");
  }

  lemma DigitsHaveNoComma(n: nat)
    ensures ',' !in NatToString(n)
  {
  }

  /** The badge of a history card: "completed" for a confirmed booking, the raw status otherwise. */
  function PastBadge(b: Booking): (text: string)
    ensures b.status == Confirmed ==> text == "completed"
    ensures b.status == Cancelled ==> text == "cancelled"
  {
    if b.status == Confirmed then "completed" else StatusText(b.status)
  }

  /** A status as the app spells it. */
  function StatusText(s: BookingStatus): string {
    match s
    case Confirmed => "confirmed"
    case Cancelled => "cancelled"
  }

  /** The signed-in user (only their presence matters here). */
  datatype User = User(name: string, email: string)

  datatype Dashboard =
    | RedirectToLogin
    | Shown(totalBookings: nat, upcoming: seq<Booking>, past: seq<Booking>, totalSpent: int)

  /**
   The page as a whole: without a user it sends the visitor to /login and
   renders nothing; with one it shows the three stats and the two tabs over
   the saved bookings.
   */
  function View(user: Option<User>, saved: seq<Booking>, nowUpcoming: int, nowPast: int,
                timeOf: string -> Option<int>): (d: Dashboard)
    ensures user.None? <==> d.RedirectToLogin?
    ensures d.Shown? ==>
              && d.totalBookings == |saved|
              && d.upcoming == UpcomingBookings(saved, nowUpcoming, timeOf)
              && d.past == PastBookings(saved, nowPast, timeOf)
              && d.totalSpent == TotalSpent(saved)
  {
    if user.None? then RedirectToLogin
    else Shown(|saved|, UpcomingBookings(saved, nowUpcoming, timeOf),
               PastBookings(saved, nowPast, timeOf), TotalSpent(saved))
  }
}

=== FILE: home_page.dfy ===
/**
 The home page: the genre and language option lists built from the
 catalogue, the three-way movie filter, and the split of the catalogue into
 "Currently Playing" and "Coming Soon".
 */
module HomePage {
  import opened BookingContext
  import opened Strings
  import opened Seqs
  import opened Pickers

  /** The separator between genres in a movie's genre string. */
  const GenreSeparator := ", "

  /** `movie.genre.split(', ').map(g => g.trim())`. */
  function GenrePieces(m: Movie): (pieces: seq<string>)
    ensures |pieces| == |Split(m.genre, GenreSeparator)| > 0
    ensures |pieces| == 1 <==> !Contains(m.genre, GenreSeparator)
    ensures forall i :: 0 <= i < |pieces| ==> TrimsTo(Split(m.genre, GenreSeparator)[i], pieces[i])
    ensures forall i :: 0 <= i < |pieces| && |pieces[i]| > 0 ==> !IsWhitespace(pieces[i][0]) && !IsWhitespace(pieces[i][|pieces[i]| - 1])
  {
    TrimEach(Split(m.genre, GenreSeparator))
  }

  /** `parts.map(g => g.trim())`. */
  function TrimEach(parts: seq<string>): (pieces: seq<string>)
    ensures |pieces| == |parts|
    ensures forall i :: 0 <= i < |pieces| ==> TrimsTo(parts[i], pieces[i])
    ensures forall i :: 0 <= i < |pieces| && |pieces[i]| > 0 ==> !IsWhitespace(pieces[i][0]) && !IsWhitespace(pieces[i][|pieces[i]| - 1])
  {
    var pieces := seq(|parts|, i requires 0 <= i < |parts| => Trim(parts[i]));
    forall i | 0 <= i < |pieces|
      ensures TrimsTo(parts[i], pieces[i])
    {
      assert pieces[i] == Trim(parts[i]);
    }
    pieces
  }

  /** `movies.flatMap(movie => genre pieces)`. */
  function AllGenres(movies: seq<Movie>): (gs: seq<string>)
    ensures forall g :: g in gs <==> exists i :: 0 <= i < |movies| && g in GenrePieces(movies[i])
  {
    FlatMap(movies, GenrePieces)
  }

  /** The genre list of a catalogue is the pieces of each movie in turn, repeats included. */
  lemma AllGenresInCatalogueOrder(movies: seq<Movie>, more: seq<Movie>, m: Movie)
    ensures AllGenres([m]) == GenrePieces(m)
    ensures AllGenres(movies + more) == AllGenres(movies) + AllGenres(more)
  {
    FlatMapAppend(movies, more, GenrePieces);
  }

  /** `['all', ...Array.from(new Set(allGenres))]`. */
  function Genres(movies: seq<Movie>): (options: seq<string>)
    ensures |options| > 0 && options[0] == All
    ensures NoDuplicates(options[1..])
    ensures forall g :: g in options[1..] <==> exists i :: 0 <= i < |movies| && g in GenrePieces(movies[i])
  {
    [All] + Distinct(AllGenres(movies))
  }

  /** The genre options after "all" list each genre the first time the catalogue mentions it. */
  lemma GenresInFirstOccurrenceOrder(movies: seq<Movie>)
    ensures Genres(movies)[1..] == FirstOccurrences(AllGenres(movies))
  {
    DistinctIsFirstOccurrences(AllGenres(movies));
  }

  /** `['all', ...Array.from(new Set(movies.map(movie => movie.language)))]`. */
  function Languages(movies: seq<Movie>): (options: seq<string>)
    ensures |options| > 0 && options[0] == All
    ensures NoDuplicates(options[1..])
    ensures forall l :: l in options[1..] <==> exists i :: 0 <= i < |movies| && movies[i].language == l
  {
    var langs := seq(|movies|, i requires 0 <= i < |movies| => movies[i].language);
    forall l | l in langs
      ensures exists i :: 0 <= i < |movies| && movies[i].language == l
    {
      var i :| 0 <= i < |langs| && langs[i] == l;
      assert movies[i].language == l;
    }
    forall i | 0 <= i < |movies|
      ensures movies[i].language in langs
    {
      assert langs[i] == movies[i].language;
    }
    var d := Distinct(langs);
    assert ([All] + d)[1..] == d;
    [All] + d
  }

  /** The language options after "all" follow first mention in the catalogue. */
  lemma LanguagesInFirstOccurrenceOrder(movies: seq<Movie>)
    ensures Languages(movies)[1..] == FirstOccurrences(seq(|movies|, i requires 0 <= i < |movies| => movies[i].language))
  {
    DistinctIsFirstOccurrences(seq(|movies|, i requires 0 <= i < |movies| => movies[i].language));
  }

  /** The search clause: the query occurs, ignoring case, in the title or in the genre string. */
  predicate MatchesSearch(m: Movie, query: string) {
    IncludesIgnoringCase(m.title, query) || IncludesIgnoringCase(m.genre, query)
  }

  /** The genre clause: the picker is "all" or the genre string contains the pick, ignoring case. */
  predicate MatchesGenre(m: Movie, genre: string) {
    genre == All || IncludesIgnoringCase(m.genre, genre)
  }

  /** The language clause: the picker is "all" or the language is the pick, exactly. */
  predicate MatchesLanguage(m: Movie, language: string) {
    language == All || m.language == language
  }

  predicate MovieMatches(m: Movie, query: string, genre: string, language: string) {
    MatchesSearch(m, query) && MatchesGenre(m, genre) && MatchesLanguage(m, language)
  }

  /** `filterMovies(movies)` under the current query, genre pick and language pick. */
  function FilterMovies(movies: seq<Movie>, query: string, genre: string, language: string): (r: seq<Movie>)
    ensures IsSubsequence(r, movies)
    ensures forall m :: m in r <==> m in movies && MatchesSearch(m, query) && MatchesGenre(m, genre) && MatchesLanguage(m, language)
    ensures forall m :: multiset(r)[m] == if MovieMatches(m, query, genre, language) then multiset(movies)[m] else 0
  {
    Filter(movies, m => MovieMatches(m, query, genre, language))
  }

  /** An empty query with both pickers on "all" shows every movie. */
  lemma FilterMoviesNeutral(movies: seq<Movie>)
    ensures FilterMovies(movies, "", All, All) == movies
  {
    forall m | m in movies
      ensures MovieMatches(m, "", All, All)
    {
      IncludesEmpty(m.title);
    }
    FilterKeepsAll(movies, m => MovieMatches(m, "", All, All));
  }

  /** Filtering an already filtered list again changes nothing. */
  lemma FilterMoviesIdempotent(movies: seq<Movie>, query: string, genre: string, language: string)
    ensures FilterMovies(FilterMovies(movies, query, genre, language), query, genre, language)
            == FilterMovies(movies, query, genre, language)
  {
    FilterIdempotent(movies, m => MovieMatches(m, query, genre, language));
  }

  predicate IsPlaying(m: Movie) {
    m.status == Playing
  }

  predicate IsUpcoming(m: Movie) {
    m.status == Upcoming
  }

  /** `currentlyPlaying`: the filter applied to the movies now playing. */
  function CurrentlyPlaying(movies: seq<Movie>, query: string, genre: string, language: string): (r: seq<Movie>)
    ensures forall m :: m in r <==> m in movies && m.status == Playing && MovieMatches(m, query, genre, language)
    ensures forall m :: multiset(r)[m] == if m.status == Playing && MovieMatches(m, query, genre, language) then multiset(movies)[m] else 0
    ensures IsSubsequence(r, movies)
  {
    var playing := Filter(movies, IsPlaying);
    var r := FilterMovies(playing, query, genre, language);
    SubsequenceTransitive(r, playing, movies);
    r
  }

  /** `upcomingMovies`: the filter applied to the movies still to come. */
  function UpcomingMovies(movies: seq<Movie>, query: string, genre: string, language: string): (r: seq<Movie>)
    ensures forall m :: m in r <==> m in movies && m.status == Upcoming && MovieMatches(m, query, genre, language)
    ensures forall m :: multiset(r)[m] == if m.status == Upcoming && MovieMatches(m, query, genre, language) then multiset(movies)[m] else 0
    ensures IsSubsequence(r, movies)
  {
    var upcoming := Filter(movies, IsUpcoming);
    var r := FilterMovies(upcoming, query, genre, language);
    SubsequenceTransitive(r, upcoming, movies);
    r
  }

  /** No movie appears on both tabs. */
  lemma TabsDisjoint(movies: seq<Movie>, query: string, genre: string, language: string)
    ensures forall m :: m in CurrentlyPlaying(movies, query, genre, language) ==> m !in UpcomingMovies(movies, query, genre, language)
  {
  }

  /** With neutral filters, every catalogue movie is on exactly one tab. */
  lemma TabsCoverCatalogue(movies: seq<Movie>)
    ensures |CurrentlyPlaying(movies, "", All, All)| + |UpcomingMovies(movies, "", All, All)| == |movies|
  {
    var playing := Filter(movies, IsPlaying);
    var upcoming := Filter(movies, IsUpcoming);
    FilterMoviesNeutral(playing);
    FilterMoviesNeutral(upcoming);
    FilterPartition(movies, IsPlaying, IsUpcoming);
  }
}

=== FILE: mock_data.dfy ===
/**
 The seat-map generator behind every screen in the mock catalogue. The
 random choice between an available and a booked seat is the one input the
 model does not compute: it arrives as the oracle `available`, which answers
 for a row index and a seat number whether `Math.random() > 0.3` came out true.
 */
module MockData {
  import opened BookingContext
  import opened Strings

  /** The row letters, indexed from 0. */
  const RowLetters := "ABCDEFGHIJKLMNOPQRSTUVWXYZ"

  /** The first three rows are premium. */
  const PremiumRows := 3

  const PremiumPrice := 300
  const RegularPrice := 200

  /**
   `rowLabels[row]` inside a template literal: the letter for the first 26
   rows; past the alphabet the lookup yields `undefined`, which prints as
   the text "undefined".
   */
  function RowLabel(row: nat): (text: string)
    ensures row < |RowLetters| ==> |text| == 1 && 'A' <= text[0] <= 'Z'
    ensures row < |RowLetters| ==> text[0] as int == 'A' as int + row
  {
    if row < |RowLetters| then
      RowLetterCode(row);
      [RowLetters[row]]
    else
      "undefined"
  }

  /** The seat numbered `number` (1-based) in row `row`. */
  function MakeSeat(row: nat, number: nat, available: bool): Seat {
    var premium := row < PremiumRows;
    Seat(
      RowLabel(row) + NatToString(number),
      RowLabel(row),
      number,
      if premium then Premium else Regular,
      if available then Available else Booked,
      if premium then PremiumPrice else RegularPrice)
  }

  /** `generateSeatMap(rows, seatsPerRow)` with the availability draws supplied by `available`. */
  function GenerateSeatMap(rows: nat, seatsPerRow: nat, available: (nat, nat) -> bool): (m: seq<seq<Seat>>)
    ensures |m| == rows
    ensures forall r :: 0 <= r < rows ==> |m[r]| == seatsPerRow
    ensures forall r, k :: 0 <= r < rows && 0 <= k < seatsPerRow ==>
              && m[r][k].row == RowLabel(r)
              && m[r][k].number == k + 1
              && m[r][k].id == RowLabel(r) + NatToString(k + 1)
    ensures forall r, k :: 0 <= r < rows && 0 <= k < seatsPerRow ==>
              && (m[r][k].kind == Premium <==> r < 3)
              && (m[r][k].kind == Regular <==> r >= 3)
              && m[r][k].price == (if m[r][k].kind == Premium then 300 else 200)
    ensures forall r, k :: 0 <= r < rows && 0 <= k < seatsPerRow ==>
              && m[r][k].status != Selected
              && (m[r][k].status == Available <==> available(r, k + 1))
  {
    var m := seq(rows, r requires 0 <= r < rows => GenerateRow(r, seatsPerRow, available));
    assert forall r, k :: 0 <= r < rows && 0 <= k < seatsPerRow ==>
             m[r][k] == MakeSeat(r, k + 1, available(r, k + 1));
    m
  }

  /** The inner loop of `generateSeatMap`: row `row`, seats numbered 1..seatsPerRow. */
  function GenerateRow(row: nat, seatsPerRow: nat, available: (nat, nat) -> bool): (seats: seq<Seat>)
    ensures |seats| == seatsPerRow
    ensures forall k :: 0 <= k < seatsPerRow ==> seats[k] == MakeSeat(row, k + 1, available(row, k + 1))
  {
    seq(seatsPerRow, k requires 0 <= k < seatsPerRow => MakeSeat(row, k + 1, available(row, k + 1)))
  }

  /** The row letters are consecutive: letter `i` is 'A' moved on by `i`. */
  lemma RowLetterCode(i: nat)
    requires i < |RowLetters|
    ensures RowLetters[i] as int == 'A' as int + i
  {
  }

  /** Within a generated map, the seat numbers of every row run 1, 2, ..., seatsPerRow. */
  lemma SeatNumbersAscend(rows: nat, seatsPerRow: nat, available: (nat, nat) -> bool, r: nat, j: nat, k: nat)
    requires r < rows && j < k < seatsPerRow
    ensures var m := GenerateSeatMap(rows, seatsPerRow, available);
            m[r][j].number < m[r][k].number && m[r][0].number == 1
  {
  }

  /**
   With at most 27 rows, no two seats of a generated map share an id: the
   letter rows are told apart by their letter, and the one row past the
   alphabet by its lower-case "undefined" prefix.
   */
  lemma SeatIdsDistinct(rows: nat, seatsPerRow: nat, available: (nat, nat) -> bool,
                        r1: nat, k1: nat, r2: nat, k2: nat)
    requires rows <= |RowLetters| + 1
    requires r1 < rows && k1 < seatsPerRow && r2 < rows && k2 < seatsPerRow
    requires (r1, k1) != (r2, k2)
    ensures var m := GenerateSeatMap(rows, seatsPerRow, available);
            m[r1][k1].id != m[r2][k2].id
  {
    var m: seq<seq<Seat>> := GenerateSeatMap(rows, seatsPerRow, available);
    assert m[r1][k1].id == RowLabel(r1) + NatToString(k1 + 1);
    assert m[r2][k2].id == RowLabel(r2) + NatToString(k2 + 1);
    if m[r1][k1].id == m[r2][k2].id {
      SeatIdDetermines(r1, k1 + 1, r2, k2 + 1);
    }
  }

  /** Up to one row past the alphabet, a seat id determines its row and its number. */
  lemma SeatIdDetermines(r1: nat, n1: nat, r2: nat, n2: nat)
    requires r1 <= |RowLetters| && r2 <= |RowLetters|
    requires RowLabel(r1) + NatToString(n1) == RowLabel(r2) + NatToString(n2)
    ensures r1 == r2 && n1 == n2
  {
    if r1 == |RowLetters| || r2 == |RowLetters| {
      BeyondAlphabetId(r1, n1, r2, n2);
    } else {
      LetterId(r1, n1, r2, n2);
    }
  }

  /** Two ids of letter rows agree only for the same row and number. */
  lemma LetterId(r1: nat, n1: nat, r2: nat, n2: nat)
    requires r1 < |RowLetters| && r2 < |RowLetters|
    requires RowLabel(r1) + NatToString(n1) == RowLabel(r2) + NatToString(n2)
    ensures r1 == r2 && n1 == n2
  {
    var a := NatToString(n1);
    var b := NatToString(n2);
    var id := [RowLetters[r1]] + a;
    assert id[0] == RowLetters[r1];
    assert ([RowLetters[r2]] + b)[0] == RowLetters[r2];
    RowLetterCode(r1);
    RowLetterCode(r2);
    assert id[1..] == a;
    assert ([RowLetters[r2]] + b)[1..] == b;
    NatToStringInjective(n1, n2);
  }

  /**
   An id of the first row past the alphabet starts with 'u', which no letter
   row does, and its digits give back the number.
   */
  lemma BeyondAlphabetId(r1: nat, n1: nat, r2: nat, n2: nat)
    requires r1 <= |RowLetters| && r2 <= |RowLetters|
    requires r1 == |RowLetters| || r2 == |RowLetters|
    requires RowLabel(r1) + NatToString(n1) == RowLabel(r2) + NatToString(n2)
    ensures r1 == r2 && n1 == n2
  {
    var id1 := RowLabel(r1) + NatToString(n1);
    var id2 := RowLabel(r2) + NatToString(n2);
    assert id1[0] == RowLabel(r1)[0] && id2[0] == RowLabel(r2)[0];
    if r1 != r2 {
      assert false;
    }
    var u := "undefined";
    assert id1[|u|..] == NatToString(n1);
    assert id2[|u|..] == NatToString(n2);
    NatToStringInjective(n1, n2);
  }

  /**
   From the second row past the alphabet on, ids repeat: in a map of 28 rows,
   the first seat of row index 26 and of row index 27 are both "undefined1".
   */
  lemma SeatIdsCollideBeyondAlphabet(seatsPerRow: nat, available: (nat, nat) -> bool)
    requires seatsPerRow > 0
    ensures var m := GenerateSeatMap(28, seatsPerRow, available);
            m[26][0].id == m[27][0].id
  {
  }
}

=== FILE: options.dfy ===
/** A value that may be missing: how the model spells JavaScript's `null`, `undefined` and `NaN`. */
module Options {

  datatype Option<+T> = None | Some(value: T) {

    /** `x || fallback` for an optional `x`: the value if there is one, the fallback if not. */
    function GetOr(fallback: T): T {
      match this
      case Some(v) => v
      case None => fallback
    }
  }
}

=== FILE: pickers.dfy ===
/** The drop-down pickers shared by the catalogue pages. */
module Pickers {

  /** The value of every picker that switches its filter off. */
  const All := "all"
}

=== FILE: search_page.dfy ===
/**
 The search page: the query taken from the URL, the full-text filter over
 title, genre, cast and director, and the line that reports the result count.
 */
module SearchPage {
  import opened Options
  import opened BookingContext
  import opened Strings
  import opened Seqs
  import HomePage

  /** `searchParams.get('q') || ''`: the `q` parameter, or the empty string when it is absent. */
  function InitialQuery(q: Option<string>): (query: string)
    ensures q.Some? ==> query == q.value
    ensures q.None? ==> query == []
  {
    q.GetOr([])
  }

  /** `movie.cast.some(actor => actor includes query)`, ignoring case. */
  predicate CastMatches(cast: seq<string>, query: string) {
    exists i :: 0 <= i < |cast| && IncludesIgnoringCase(cast[i], query)
  }

  /** The query occurs, ignoring case, in the title, the genre, a cast member or the director. */
  predicate SearchMatches(m: Movie, query: string) {
    || IncludesIgnoringCase(m.title, query)
    || IncludesIgnoringCase(m.genre, query)
    || CastMatches(m.cast, query)
    || IncludesIgnoringCase(m.director, query)
  }

  /** `filteredMovies`: nothing for a blank query, otherwise the matching movies with the query used untrimmed. */
  function SearchMovies(movies: seq<Movie>, query: string): (r: seq<Movie>)
    ensures IsBlank(query) ==> r == []
    ensures IsSubsequence(r, movies)
    ensures !IsBlank(query) ==> forall m :: m in r <==> m in movies && SearchMatches(m, query)
    ensures !IsBlank(query) ==> forall m :: multiset(r)[m] == if SearchMatches(m, query) then multiset(movies)[m] else 0
  {
    if IsBlank(query) then [] else Filter(movies, m => SearchMatches(m, query))
  }

  /** A query of spaces, tabs and line breaks finds nothing, even though titles containing that whitespace would otherwise match. */
  lemma WhitespaceQueryFindsNothing(movies: seq<Movie>, query: string)
    requires forall i :: 0 <= i < |query| ==> IsWhitespace(query[i])
    ensures SearchMovies(movies, query) == []
  {
    BlankIffAllWhitespace(query);
  }

  /**
   For a non-blank query the search page finds, in the same order, at least
   every movie the home page's search box would keep.
   */
  lemma SearchCoversHomeSearch(movies: seq<Movie>, query: string)
    requires !IsBlank(query)
    ensures IsSubsequence(Filter(movies, m => HomePage.MatchesSearch(m, query)), SearchMovies(movies, query))
  {
    FilterStrengthen(movies, m => HomePage.MatchesSearch(m, query), m => SearchMatches(m, query));
  }

  /** `result` or `results` according to the count. */
  function ResultWord(n: nat): string {
    if n == 1 then "result" else "results"
  }

  /** What follows the count: ` result(s) for "<query>"`. */
  function CountTail(query: string, n: nat): string {
    " " + ResultWord(n) + " for \"" + query + "\""
  }

  /** The status line above the results: nothing for a blank query, otherwise the count or a "no results" line. */
  function ResultMessage(query: string, n: nat): (msg: Option<string>)
    ensures IsBlank(query) <==> msg.None?
    ensures msg.Some? && n > 0 ==> msg.value == "Found " + NatToString(n) + CountTail(query, n)
    ensures msg.Some? && n == 0 ==> msg.value == "No results found for \"" + query + "\""
  {
    if IsBlank(query) then None
    else if n > 0 then Some("Found " + NatToString(n) + CountTail(query, n))
    else Some("No results found for \"" + query + "\"")
  }

  /** The count printed after "Found " reads back as the number of results. */
  lemma ResultMessageCount(query: string, n: nat)
    requires !IsBlank(query) && n > 0
    ensures var msg := ResultMessage(query, n).value;
            var digits := NatToString(n);
            && msg[..6] == "Found "
            && msg[6..6 + |digits|] == digits
            && ParseNat(msg[6..6 + |digits|]) == n
  {
    SlicesOfConcat("Found ", NatToString(n), CountTail(query, n));
    ParseNatToString(n);
  }

  lemma SlicesOfConcat(a: string, b: string, c: string)
    ensures (a + b + c)[..|a|] == a
    ensures (a + b + c)[|a|..|a| + |b|] == b
  {
  }

  /** A non-blank query that matches no movie reports "No results found". */
  lemma NoMatchesMessage(movies: seq<Movie>, query: string)
    requires !IsBlank(query)
    requires forall m :: m in movies ==> !SearchMatches(m, query)
    ensures ResultMessage(query, |SearchMovies(movies, query)|) == Some("No results found for \"" + query + "\"")
  {
    var r := SearchMovies(movies, query);
    assert forall m :: m !in r;
  }

  /** A non-blank query that matches some movie reports a count. */
  lemma MatchesMessage(movies: seq<Movie>, query: string, m: Movie)
    requires !IsBlank(query) && m in movies && SearchMatches(m, query)
    ensures ResultMessage(query, |SearchMovies(movies, query)|).value[..6] == "Found "
  {
    var n := |SearchMovies(movies, query)|;
    assert m in SearchMovies(movies, query);
    ResultMessageCount(query, n);
  }

  /** The word after the count is singular exactly for one result. */
  lemma ResultWordSingularIffOne(n: nat)
    ensures ResultWord(n) == "result" <==> n == 1
  {
  }
}

=== FILE: seat_map.dfy ===
/**
 The seat-map component: which seats count as selected, what a click does,
 which buttons are disabled, which background colour each seat gets, and
 the label printed at both ends of a row.
 */
module SeatMap {
  import opened BookingContext
  import MockData

  /** `selectedSeats.some(s => s.id === seat.id)`, scanning from the front. */
  function IsSeatSelected(selected: seq<Seat>, seat: Seat): (r: bool)
    ensures r <==> exists i :: 0 <= i < |selected| && selected[i].id == seat.id
    decreases |selected|
  {
    if |selected| == 0 then false
    else if selected[0].id == seat.id then true
    else
      var rest := IsSeatSelected(selected[1..], seat);
      assert forall i :: 0 < i < |selected| ==> selected[i] == selected[1..][i - 1];
      rest
  }

  /**
   `handleSeatClick`: the calls it makes to `onSeatSelect`, in order. A
   booked seat makes none; any other seat makes exactly one, with itself.
   */
  function HandleSeatClick(seat: Seat): (calls: seq<Seat>)
    ensures seat.status == Booked ==> calls == []
    ensures seat.status != Booked ==> calls == [seat]
  {
    if seat.status == Booked then [] else [seat]
  }

  /**
   The `disabled` attribute of a seat's button: a button is disabled exactly
   when clicking it would not reach `onSeatSelect`.
   */
  predicate IsDisabled(seat: Seat)
    ensures IsDisabled(seat) <==> |HandleSeatClick(seat)| == 0
  {
    seat.status == Booked
  }

  /** Runs the callback once per call a click makes, threading the selection through. */
  function ApplyCalls(selection: seq<Seat>, calls: seq<Seat>, onSeatSelect: (seq<Seat>, Seat) -> seq<Seat>): seq<Seat>
    decreases |calls|
  {
    if |calls| == 0 then selection
    else ApplyCalls(onSeatSelect(selection, calls[0]), calls[1..], onSeatSelect)
  }

  /**
   Whatever the page does in `onSeatSelect`, clicking a booked seat leaves
   the selection, and so the selected count, as it was.
   */
  lemma BookedClickKeepsSelection(selection: seq<Seat>, seat: Seat, onSeatSelect: (seq<Seat>, Seat) -> seq<Seat>)
    requires seat.status == Booked
    ensures ApplyCalls(selection, HandleSeatClick(seat), onSeatSelect) == selection
    ensures |ApplyCalls(selection, HandleSeatClick(seat), onSeatSelect)| == |selection|
  {
  }

  /** Clicking a seat that is not booked runs the callback exactly once, on that seat. */
  lemma FreeClickCallsOnce(selection: seq<Seat>, seat: Seat, onSeatSelect: (seq<Seat>, Seat) -> seq<Seat>)
    requires seat.status != Booked
    ensures ApplyCalls(selection, HandleSeatClick(seat), onSeatSelect) == onSeatSelect(selection, seat)
  {
    assert HandleSeatClick(seat)[1..] == [];
  }

  /** The background colour classes a seat button can receive. */
  datatype Shade = AvailableRegular | AvailablePremium | SelectedRegular | SelectedPremium | BookedShade

  /** The background class each shade stands for. */
  function ShadeClass(shade: Shade): string {
    match shade
    case AvailableRegular => "bg-gray-100"
    case AvailablePremium => "bg-yellow-100"
    case SelectedRegular => "bg-green-500"
    case SelectedPremium => "bg-yellow-500"
    case BookedShade => "bg-red-400"
  }

  /** Different shades have different classes, so a seat's class tells its shade. */
  lemma ShadeClassesDistinct(a: Shade, b: Shade)
    ensures ShadeClass(a) == ShadeClass(b) <==> a == b
  {
  }

  /** The conditional class map of a seat button: the shades whose condition holds, in declaration order. */
  function SeatShades(seat: Seat, selected: seq<Seat>): (shades: seq<Shade>)
    ensures AvailableRegular in shades <==> seat.status == Available && !IsSeatSelected(selected, seat) && seat.kind == Regular
    ensures AvailablePremium in shades <==> seat.status == Available && !IsSeatSelected(selected, seat) && seat.kind == Premium
    ensures SelectedRegular in shades <==> IsSeatSelected(selected, seat) && seat.kind == Regular
    ensures SelectedPremium in shades <==> IsSeatSelected(selected, seat) && seat.kind == Premium
    ensures BookedShade in shades <==> seat.status == Booked
  {
    var isSelected := IsSeatSelected(selected, seat);
    (if seat.status == Available && !isSelected && seat.kind == Regular then [AvailableRegular] else [])
    + (if seat.status == Available && !isSelected && seat.kind == Premium then [AvailablePremium] else [])
    + (if isSelected && seat.kind == Regular then [SelectedRegular] else [])
    + (if isSelected && seat.kind == Premium then [SelectedPremium] else [])
    + (if seat.status == Booked then [BookedShade] else [])
  }

  /**
   The intended colour, decided status first: a booked seat is red, a
   selected one green (or dark yellow if premium), any other light grey (or
   light yellow if premium).
   */
  function IntendedShade(seat: Seat, isSelected: bool): Shade {
    if seat.status == Booked then BookedShade
    else if isSelected then (if seat.kind == Premium then SelectedPremium else SelectedRegular)
    else if seat.kind == Premium then AvailablePremium
    else AvailableRegular
  }

  /**
   A seat that is available or booked, and is not a booked seat sitting in
   the selection, gets exactly one colour, and it is the intended one.
   */
  lemma ExactlyOneShade(seat: Seat, selected: seq<Seat>)
    requires seat.status == Available || seat.status == Booked
    requires !(seat.status == Booked && IsSeatSelected(selected, seat))
    ensures SeatShades(seat, selected) == [IntendedShade(seat, IsSeatSelected(selected, seat))]
  {
  }

  /** For a booked seat whose id is in the selection, the class map switches on two shades at once, red and a selected one. */
  lemma BookedAndSelectedGetsTwoShades(seat: Seat, selected: seq<Seat>)
    requires seat.status == Booked && IsSeatSelected(selected, seat)
    ensures |SeatShades(seat, selected)| == 2
    ensures BookedShade in SeatShades(seat, selected)
  {
  }

  /** A seat whose own status is `selected` but whose id is not in the selection gets no colour. */
  lemma StaleSelectedStatusGetsNoShade(seat: Seat, selected: seq<Seat>)
    requires seat.status == Selected && !IsSeatSelected(selected, seat)
    ensures SeatShades(seat, selected) == []
  {
  }

  /** `row[0]?.row`: the label shown at both ends of a row; an empty row shows nothing. */
  function RowLabel(row: seq<Seat>): (text: string)
    ensures |row| > 0 ==> text == row[0].row
    ensures |row| == 0 ==> text == []
  {
    if |row| == 0 then [] else row[0].row
  }

  /** In a generated map, every row is labelled with its own letter, the same letter each of its seats carries. */
  lemma GeneratedRowLabels(rows: nat, seatsPerRow: nat, available: (nat, nat) -> bool, r: nat, k: nat)
    requires r < rows && k < seatsPerRow
    ensures var m := MockData.GenerateSeatMap(rows, seatsPerRow, available);
            RowLabel(m[r]) == MockData.RowLabel(r) == m[r][k].row
  {
  }
}

=== FILE: seqs.dfy ===
/**
 Sequence combinators shared by the pages: `Array.prototype.filter` and the
 "distinct values in first-occurrence order" idiom `Array.from(new Set(xs))`,
 together with the facts the pages rely on.
 */
module Seqs {

  /** `a` can be obtained from `b` by deleting elements (order is kept). */
  ghost predicate IsSubsequence<T>(a: seq<T>, b: seq<T>)
    decreases |b|
  {
    || |a| == 0
    || (&& |b| > 0
        && ((a[0] == b[0] && IsSubsequence(a[1..], b[1..])) || IsSubsequence(a, b[1..])))
  }

  /** `Array.prototype.filter`: the elements of `s` satisfying `p`, in their original order. */
  function Filter<T(!new)>(s: seq<T>, p: T -> bool): (r: seq<T>)
    ensures |r| <= |s|
    ensures forall x :: x in r <==> x in s && p(x)
    ensures forall i :: 0 <= i < |r| ==> p(r[i])
    ensures IsSubsequence(r, s)
    ensures forall x :: multiset(r)[x] == if p(x) then multiset(s)[x] else 0
    decreases |s|
  {
    if |s| == 0 then []
    else
      var rest := Filter(s[1..], p);
      var r := if p(s[0]) then [s[0]] + rest else rest;
      FilterCountsStep(s, p, rest, r);
      if p(s[0]) then
        assert ([s[0]] + rest)[1..] == rest;
        [s[0]] + rest
      else
        rest
  }

  /** The copies kept by a filter step: those of the head if it passes, plus those kept from the tail. */
  lemma FilterCountsStep<T>(s: seq<T>, p: T -> bool, rest: seq<T>, r: seq<T>)
    requires |s| > 0
    requires forall x :: multiset(rest)[x] == if p(x) then multiset(s[1..])[x] else 0
    requires r == if p(s[0]) then [s[0]] + rest else rest
    ensures forall x :: multiset(r)[x] == if p(x) then multiset(s)[x] else 0
  {
    assert s == [s[0]] + s[1..];
    assert multiset(s) == multiset{s[0]} + multiset(s[1..]);
  }

  /** Filtering a sequence with a known head: the head is kept exactly when it passes. */
  lemma FilterCons<T(!new)>(x: T, rest: seq<T>, p: T -> bool)
    ensures Filter([x] + rest, p) == if p(x) then [x] + Filter(rest, p) else Filter(rest, p)
  {
    assert ([x] + rest)[1..] == rest;
  }

  /** A subsequence of a subsequence is a subsequence. */
  lemma {:induction false} SubsequenceTransitive<T>(a: seq<T>, b: seq<T>, c: seq<T>)
    requires IsSubsequence(a, b) && IsSubsequence(b, c)
    ensures IsSubsequence(a, c)
    decreases |c|
  {
    if |a| == 0 {
    } else if b[0] == c[0] && IsSubsequence(b[1..], c[1..]) {
      if a[0] == b[0] && IsSubsequence(a[1..], b[1..]) {
        SubsequenceTransitive(a[1..], b[1..], c[1..]);
      } else {
        SubsequenceTransitive(a, b[1..], c[1..]);
      }
    } else {
      SubsequenceTransitive(a, b, c[1..]);
    }
  }

  /** A filter that every element passes returns its input unchanged. */
  lemma {:induction false} FilterKeepsAll<T(!new)>(s: seq<T>, p: T -> bool)
    requires forall x :: x in s ==> p(x)
    ensures Filter(s, p) == s
    decreases |s|
  {
    if |s| > 0 {
      FilterKeepsAll(s[1..], p);
      assert s == [s[0]] + s[1..];
      FilterCons(s[0], s[1..], p);
    }
  }

  /** Filtering twice by the same predicate is filtering once. */
  lemma FilterIdempotent<T(!new)>(s: seq<T>, p: T -> bool)
    ensures Filter(Filter(s, p), p) == Filter(s, p)
  {
    FilterKeepsAll(Filter(s, p), p);
  }

  /** Filtering by a stronger predicate keeps a subsequence of what the weaker one keeps. */
  lemma {:induction false} FilterStrengthen<T(!new)>(s: seq<T>, strong: T -> bool, weak: T -> bool)
    requires forall x :: x in s && strong(x) ==> weak(x)
    ensures IsSubsequence(Filter(s, strong), Filter(s, weak))
    decreases |s|
  {
    if |s| > 0 {
      FilterStrengthen(s[1..], strong, weak);
      var a := Filter(s[1..], strong);
      var b := Filter(s[1..], weak);
      if weak(s[0]) {
        assert ([s[0]] + b)[1..] == b;
        if strong(s[0]) {
          assert ([s[0]] + a)[1..] == a;
        }
      }
    }
  }

  /**
   When every element satisfies exactly one of two predicates, the two
   filters split the input: their lengths add up to its length.
   */
  lemma {:induction false} FilterPartition<T(!new)>(s: seq<T>, p: T -> bool, q: T -> bool)
    requires forall x :: x in s ==> p(x) != q(x)
    ensures |Filter(s, p)| + |Filter(s, q)| == |s|
    decreases |s|
  {
    if |s| > 0 {
      FilterPartition(s[1..], p, q);
    }
  }

  /** `s.flatMap(f)`: the images of the elements, one after the other. */
  function FlatMap<T, U(!new)>(s: seq<T>, f: T -> seq<U>): (r: seq<U>)
    ensures forall y :: y in r <==> exists i :: 0 <= i < |s| && y in f(s[i])
    ensures |s| == 0 ==> r == []
    ensures |s| == 1 ==> r == f(s[0])
    decreases |s|
  {
    if |s| == 0 then []
    else
      var rest := FlatMap(s[1..], f);
      FlatMapCons(s, f, rest);
      f(s[0]) + rest
  }

  /** The images of a concatenation are the images of each part, one after the other. */
  lemma {:induction false} FlatMapAppend<T, U(!new)>(a: seq<T>, b: seq<T>, f: T -> seq<U>)
    ensures FlatMap(a + b, f) == FlatMap(a, f) + FlatMap(b, f)
    decreases |a|
  {
    if |a| > 0 {
      assert (a + b)[1..] == a[1..] + b;
      FlatMapAppend(a[1..], b, f);
    } else {
      assert a + b == b;
    }
  }

  lemma FlatMapCons<T, U>(s: seq<T>, f: T -> seq<U>, rest: seq<U>)
    requires |s| > 0
    requires forall y :: y in rest <==> exists i :: 0 <= i < |s| - 1 && y in f(s[1..][i])
    ensures forall y :: y in f(s[0]) + rest <==> exists i :: 0 <= i < |s| && y in f(s[i])
  {
    forall y | y in rest
      ensures exists i :: 0 <= i < |s| && y in f(s[i])
    {
      var k :| 0 <= k < |s| - 1 && y in f(s[1..][k]);
      assert y in f(s[k + 1]);
    }
    forall y, i | 0 < i < |s| && y in f(s[i])
      ensures y in rest
    {
      assert s[1..][i - 1] == s[i];
    }
  }

  /** No element occurs twice. */
  predicate NoDuplicates<T(==)>(s: seq<T>) {
    forall i, j :: 0 <= i < j < |s| ==> s[i] != s[j]
  }

  /**
   `Array.from(new Set(s))`: each value once, in the order a `Set` receives it,
   that is, an element is added when the set built so far lacks it.
   */
  function Distinct<T(==,!new)>(s: seq<T>): (r: seq<T>)
    ensures NoDuplicates(r)
    ensures forall x :: x in r <==> x in s
    decreases |s|
  {
    if |s| == 0 then []
    else
      var d := Distinct(s[..|s| - 1]);
      var x := s[|s| - 1];
      assert forall y :: y in s <==> y in s[..|s| - 1] || y == x;
      if x in d then d else d + [x]
  }

  /**
   Reference definition of first-occurrence order: `s[i]` is kept exactly when
   it does not occur in `s[..i]`.
   */
  ghost function FirstOccurrences<T>(s: seq<T>): seq<T>
    decreases |s|
  {
    if |s| == 0 then []
    else
      var prefix := s[..|s| - 1];
      FirstOccurrences(prefix) + (if s[|s| - 1] in prefix then [] else [s[|s| - 1]])
  }

  /** `Distinct` keeps exactly the first occurrence of every value. */
  lemma {:induction false} DistinctIsFirstOccurrences<T(!new)>(s: seq<T>)
    ensures Distinct(s) == FirstOccurrences(s)
    decreases |s|
  {
    if |s| > 0 {
      DistinctIsFirstOccurrences(s[..|s| - 1]);
    }
  }
}

=== FILE: strings.dfy ===
/**
 The handful of JavaScript string operations the pages use: `toLowerCase`
 (ASCII letters only), `includes`, `trim`, `split`, `join`, and the decimal
 rendering of a non-negative integer inside a template literal.
 */
module Strings {
  import opened Options

  /** `toLowerCase` on one character, restricted to the ASCII letters. */
  function LowerChar(c: char): char {
    if 'A' <= c <= 'Z' then (c as int + 32) as char else c
  }

  /** `s.toLowerCase()` for ASCII text. */
  function Lower(s: string): (r: string)
    ensures |r| == |s|
    ensures forall i :: 0 <= i < |r| ==> !('A' <= r[i] <= 'Z')
    ensures forall i :: 0 <= i < |r| ==> ('a' <= r[i] <= 'z' <==> 'a' <= s[i] <= 'z' || 'A' <= s[i] <= 'Z')
    ensures forall i :: 0 <= i < |s| ==> if 'A' <= s[i] <= 'Z' then r[i] as int == s[i] as int + 32 else r[i] == s[i]
  {
    seq(|s|, i requires 0 <= i < |s| => LowerChar(s[i]))
  }

  /** Lower-casing is idempotent. */
  lemma LowerIdempotent(s: string)
    ensures Lower(Lower(s)) == Lower(s)
  {
  }

  /** `sub` occurs in `s` starting at index `i`. */
  ghost predicate OccursAt(s: string, sub: string, i: int) {
    0 <= i && i + |sub| <= |s| && s[i..i + |sub|] == sub
  }

  /** An occurrence in `s[1..]` is an occurrence in `s`, one position later. */
  lemma OccursInTail(s: string, sub: string)
    requires |s| > 0
    ensures forall j {:trigger OccursAt(s, sub, j)} :: 1 <= j ==> (OccursAt(s, sub, j) <==> OccursAt(s[1..], sub, j - 1))
  {
    forall j | 1 <= j
      ensures OccursAt(s, sub, j) <==> OccursAt(s[1..], sub, j - 1)
    {
      if j + |sub| <= |s| {
        assert s[1..][j - 1..j - 1 + |sub|] == s[j..j + |sub|];
      }
    }
  }

  /** `s.indexOf(sub)`: the first index at which `sub` occurs, or None for -1. */
  function IndexOf(s: string, sub: string): (r: Option<nat>)
    ensures r.Some? ==> OccursAt(s, sub, r.value)
    ensures r.Some? ==> forall j :: 0 <= j < r.value ==> !OccursAt(s, sub, j)
    ensures r.None? ==> forall j :: !OccursAt(s, sub, j)
    decreases |s|
  {
    if |sub| <= |s| && s[..|sub|] == sub then
      assert OccursAt(s, sub, 0);
      Some(0)
    else if |s| == 0 then
      None
    else
      OccursInTail(s, sub);
      match IndexOf(s[1..], sub)
      case None => None
      case Some(j) => Some(j + 1)
  }

  /** `s.includes(sub)`. */
  predicate Contains(s: string, sub: string)
    ensures Contains(s, sub) <==> exists i :: OccursAt(s, sub, i)
  {
    IndexOf(s, sub).Some?
  }

  /** Every string includes the empty string. */
  lemma ContainsEmpty(s: string)
    ensures Contains(s, [])
  {
    assert OccursAt(s, [], 0);
  }

  /** `hay.toLowerCase().includes(needle.toLowerCase())`: the lower-cased needle occurs in the lower-cased haystack. */
  predicate IncludesIgnoringCase(hay: string, needle: string)
    ensures IncludesIgnoringCase(hay, needle) <==> exists i :: OccursAt(Lower(hay), Lower(needle), i)
  {
    Contains(Lower(hay), Lower(needle))
  }

  /** Lower-casing either side first does not change a case-blind match. */
  lemma CaseDoesNotMatter(hay: string, needle: string)
    ensures IncludesIgnoringCase(Lower(hay), needle) == IncludesIgnoringCase(hay, needle)
    ensures IncludesIgnoringCase(hay, Lower(needle)) == IncludesIgnoringCase(hay, needle)
  {
    LowerIdempotent(hay);
    LowerIdempotent(needle);
  }

  /** The empty needle matches every haystack, whatever its case. */
  lemma IncludesEmpty(hay: string)
    ensures IncludesIgnoringCase(hay, [])
  {
    ContainsEmpty(Lower(hay));
  }

  /**
   The characters `String.prototype.trim` removes: the ECMAScript WhiteSpace
   and LineTerminator code points.
   */
  predicate IsWhitespace(c: char) {
    || c == ' ' || c == '\t' || c == '\n' || c == '\r'
    || c == '\U{B}' || c == '\U{C}' || c == '\U{A0}' || c == '\U{1680}'
    || ('\U{2000}' <= c <= '\U{200A}')
    || c == '\U{2028}' || c == '\U{2029}' || c == '\U{202F}' || c == '\U{205F}'
    || c == '\U{3000}' || c == '\U{FEFF}'
  }

  /** `trimStart`: the suffix left after dropping leading whitespace. */
  function TrimStart(s: string): (r: string)
    ensures |r| <= |s| && r == s[|s| - |r|..]
    ensures forall i :: 0 <= i < |s| - |r| ==> IsWhitespace(s[i])
    ensures |r| > 0 ==> !IsWhitespace(r[0])
    decreases |s|
  {
    if |s| > 0 && IsWhitespace(s[0]) then TrimStart(s[1..]) else s
  }

  /** `trimEnd`: the prefix left after dropping trailing whitespace. */
  function TrimEnd(s: string): (r: string)
    ensures |r| <= |s| && r == s[..|r|]
    ensures forall i :: |r| <= i < |s| ==> IsWhitespace(s[i])
    ensures |r| > 0 ==> !IsWhitespace(r[|r| - 1])
    decreases |s|
  {
    if |s| > 0 && IsWhitespace(s[|s| - 1]) then TrimEnd(s[..|s| - 1]) else s
  }

  /**
   `r` is the slice of `s` that starts at `k`, and everything outside the slice
   is whitespace.
   */
  ghost predicate TrimmedAt(s: string, r: string, k: int) {
    && 0 <= k && k + |r| <= |s| && r == s[k..k + |r|]
    && (forall i :: 0 <= i < k ==> IsWhitespace(s[i]))
    && (forall i :: k + |r| <= i < |s| ==> IsWhitespace(s[i]))
  }

  /** `r` is `s` with some whitespace cut from each end. */
  ghost predicate TrimsTo(s: string, r: string) {
    exists k :: TrimmedAt(s, r, k)
  }

  /** `s.trim()`: whitespace gone from both ends, nothing else touched. */
  function Trim(s: string): (r: string)
    ensures |r| > 0 ==> !IsWhitespace(r[0]) && !IsWhitespace(r[|r| - 1])
    ensures TrimsTo(s, r)
  {
    var t := TrimStart(s);
    var r := TrimEnd(t);
    FramedSlice(s, t, r);
    r
  }

  /**
   A prefix `r` of a suffix `t` of `s`, with whitespace before `t` and after
   `r`, is a slice of `s` framed by whitespace.
   */
  lemma FramedSlice(s: string, t: string, r: string)
    requires |t| <= |s| && t == s[|s| - |t|..]
    requires forall i :: 0 <= i < |s| - |t| ==> IsWhitespace(s[i])
    requires |r| <= |t| && r == t[..|r|]
    requires forall i :: |r| <= i < |t| ==> IsWhitespace(t[i])
    ensures TrimmedAt(s, r, |s| - |t|)
  {
    var k := |s| - |t|;
    assert r == s[k..k + |r|];
    forall i | k + |r| <= i < |s|
      ensures IsWhitespace(s[i])
    {
      assert s[i] == t[i - k];
    }
  }

  /** `!s.trim()`: the string is empty or holds only whitespace. */
  predicate IsBlank(s: string) {
    Trim(s) == []
  }

  /** A string is blank exactly when every character is whitespace. */
  lemma BlankIffAllWhitespace(s: string)
    ensures IsBlank(s) <==> forall i :: 0 <= i < |s| ==> IsWhitespace(s[i])
  {
    var t := TrimStart(s);
    if IsBlank(s) {
      assert |t| == 0;
    }
    if forall i :: 0 <= i < |s| ==> IsWhitespace(s[i]) {
      assert |t| == 0;
    }
  }

  /** `parts.join(sep)`. */
  function Join(parts: seq<string>, sep: string): (r: string)
    ensures |parts| == 0 ==> r == []
    ensures |parts| == 1 ==> r == parts[0]
    decreases |parts|
  {
    if |parts| == 0 then []
    else if |parts| == 1 then parts[0]
    else parts[0] + sep + Join(parts[1..], sep)
  }

  /** Joining a leading piece in front of a non-empty list puts one separator between. */
  lemma JoinCons(head: string, pieces: seq<string>, sep: string)
    requires |pieces| > 0
    ensures Join([head] + pieces, sep) == head + sep + Join(pieces, sep)
  {
    assert ([head] + pieces)[1..] == pieces;
  }

  /** `s.split(sep)` for a non-empty separator. */
  function Split(s: string, sep: string): (r: seq<string>)
    requires |sep| > 0
    ensures |r| > 0
    ensures |r| == 1 <==> !Contains(s, sep)
    decreases |s|
  {
    match IndexOf(s, sep)
    case None => [s]
    case Some(i) => [s[..i]] + Split(s[i + |sep|..], sep)
  }

  /** A split at the first occurrence `i` of the separator. */
  lemma SplitAt(s: string, sep: string, i: nat)
    requires |sep| > 0
    requires IndexOf(s, sep) == Some(i)
    ensures i + |sep| <= |s| && s == s[..i] + sep + s[i + |sep|..]
    ensures Split(s, sep) == [s[..i]] + Split(s[i + |sep|..], sep)
  {
    assert OccursAt(s, sep, i);
    SeparatorSplits(s, sep, i);
  }

  /** A string with `sep` at `i` is the text before, `sep`, and the text after. */
  lemma SeparatorSplits(s: string, sep: string, i: nat)
    requires OccursAt(s, sep, i)
    ensures s == s[..i] + sep + s[i + |sep|..]
  {
    assert s == s[..i] + s[i..i + |sep|] + s[i + |sep|..];
  }

  /** Joining the pieces of a split with the same separator restores the string. */
  lemma {:induction false} JoinSplit(s: string, sep: string)
    requires |sep| > 0
    ensures Join(Split(s, sep), sep) == s
    decreases |s|
  {
    var found := IndexOf(s, sep);
    if found.Some? {
      var i := found.value;
      var rest := s[i + |sep|..];
      SplitAt(s, sep, i);
      JoinSplit(rest, sep);
      JoinCons(s[..i], Split(rest, sep), sep);
    }
  }

  /**
   Splitting a join restores the pieces, provided no piece contains the first
   character of the separator (so no earlier match can start inside a piece).
   */
  lemma {:induction false} SplitJoin(parts: seq<string>, sep: string)
    requires |parts| > 0 && |sep| > 0
    requires forall k :: 0 <= k < |parts| ==> sep[0] !in parts[k]
    ensures Split(Join(parts, sep), sep) == parts
    decreases |parts|
  {
    var p := parts[0];
    if |parts| == 1 {
      NoMatchInside(p, p, sep);
      assert !Contains(p, sep);
    } else {
      var rest := Join(parts[1..], sep);
      var s := p + sep + rest;
      NoMatchInside(p, s, sep);
      SeparatorAfter(p, sep, rest);
      FirstMatch(s, sep, |p|);
      SplitAt(s, sep, |p|);
      assert s[..|p|] == p;
      assert s[|p| + |sep|..] == rest;
      SplitJoin(parts[1..], sep);
    }
  }

  /** No match of `sep` starts inside a prefix `p` that lacks `sep`'s first character. */
  lemma NoMatchInside(p: string, s: string, sep: string)
    requires |sep| > 0 && sep[0] !in p
    requires |p| <= |s| && s[..|p|] == p
    ensures forall j :: 0 <= j < |p| ==> !OccursAt(s, sep, j)
  {
    forall j | 0 <= j < |p|
      ensures !OccursAt(s, sep, j)
    {
      if j + |sep| <= |s| {
        assert s[j..j + |sep|][0] == s[..|p|][j];
      }
    }
  }

  /** `sep` occurs right after `p` in `p + sep + rest`. */
  lemma SeparatorAfter(p: string, sep: string, rest: string)
    ensures OccursAt(p + sep + rest, sep, |p|)
  {
    assert (p + sep + rest)[|p|..|p| + |sep|] == sep;
  }

  /** A match with no match before it is the one `IndexOf` finds. */
  lemma FirstMatch(s: string, sep: string, i: nat)
    requires OccursAt(s, sep, i)
    requires forall j :: 0 <= j < i ==> !OccursAt(s, sep, j)
    ensures IndexOf(s, sep) == Some(i)
  {
  }

  /** One decimal digit. */
  predicate IsDigit(c: char) {
    '0' <= c <= '9'
  }

  function DigitChar(d: nat): (c: char)
    requires d < 10
    ensures IsDigit(c) && DigitValue(c) == d
  {
    (d + '0' as int) as char
  }

  function DigitValue(c: char): nat
    requires IsDigit(c)
  {
    c as int - '0' as int
  }

  /** The value of a string of decimal digits (the inverse of `NatToString`). */
  function ParseNat(s: string): nat
    requires forall i :: 0 <= i < |s| ==> IsDigit(s[i])
    decreases |s|
  {
    if |s| == 0 then 0
    else ParseNat(s[..|s| - 1]) * 10 + DigitValue(s[|s| - 1])
  }

  /** `${n}` for a non-negative integer: its shortest decimal form. */
  function NatToString(n: nat): (r: string)
    ensures |r| > 0
    ensures forall i :: 0 <= i < |r| ==> IsDigit(r[i])
    ensures |r| > 1 ==> r[0] != '0'
    decreases n
  {
    if n < 10 then [DigitChar(n)]
    else NatToString(n / 10) + [DigitChar(n % 10)]
  }

  /** Reading back the decimal form of `n` gives `n`. */
  lemma {:induction false} ParseNatToString(n: nat)
    ensures ParseNat(NatToString(n)) == n
    decreases n
  {
    if n >= 10 {
      ParseNatToString(n / 10);
      var s := NatToString(n);
      assert s[..|s| - 1] == NatToString(n / 10);
    }
  }

  /** Distinct numbers render as distinct strings. */
  lemma NatToStringInjective(m: nat, n: nat)
    requires NatToString(m) == NatToString(n)
    ensures m == n
  {
    ParseNatToString(m);
    ParseNatToString(n);
  }
}

=== FILE: theaters_page.dfy ===
/**
 The theatres page: the fixed area options, the name/location search with
 the area picker, and the showtimes each theatre card shows.
 */
module TheatersPage {
  import opened BookingContext
  import opened Strings
  import opened Seqs
  import opened Pickers

  /** The options of the area picker: "all" and five Mumbai areas. */
  const Areas: seq<string> := [All, "Lower Parel", "Ghatkopar", "Thane", "Andheri", "Bandra"]

  /** The area options are "all" followed by five distinct area names. */
  lemma AreaOptions()
    ensures |Areas| == 6 && Areas[0] == All
    ensures NoDuplicates(Areas)
  {
  }

  /** The search clause: the query occurs, ignoring case, in the name or the location. */
  predicate MatchesSearch(t: Theater, query: string) {
    IncludesIgnoringCase(t.name, query) || IncludesIgnoringCase(t.location, query)
  }

  /** The area clause: the picker is "all" or the location contains the area, ignoring case. */
  predicate MatchesArea(t: Theater, area: string) {
    area == All || IncludesIgnoringCase(t.location, area)
  }

  predicate TheaterMatches(t: Theater, query: string, area: string) {
    MatchesSearch(t, query) && MatchesArea(t, area)
  }

  /** `filteredTheaters` for the current query and area. */
  function FilterTheaters(theaters: seq<Theater>, query: string, area: string): (r: seq<Theater>)
    ensures IsSubsequence(r, theaters)
    ensures forall t :: t in r <==> t in theaters && MatchesSearch(t, query) && MatchesArea(t, area)
    ensures forall t :: multiset(r)[t] == if TheaterMatches(t, query, area) then multiset(theaters)[t] else 0
  {
    Filter(theaters, t => TheaterMatches(t, query, area))
  }

  /** An empty query with the area on "all" lists every theatre. */
  lemma FilterTheatersNeutral(theaters: seq<Theater>)
    ensures FilterTheaters(theaters, "", All) == theaters
  {
    forall t | t in theaters
      ensures TheaterMatches(t, "", All)
    {
      IncludesEmpty(t.name);
    }
    FilterKeepsAll(theaters, t => TheaterMatches(t, "", All));
  }

  /** Picking an area only narrows the list the same query gives with "all". */
  lemma AreaNarrows(theaters: seq<Theater>, query: string, area: string)
    ensures IsSubsequence(FilterTheaters(theaters, query, area), FilterTheaters(theaters, query, All))
  {
    FilterStrengthen(theaters, t => TheaterMatches(t, query, area), t => TheaterMatches(t, query, All));
  }

  /** The number of showtimes a card has room for. */
  const ShownShowtimes := 4

  /** `theater.showtimes.slice(0, 4)`. */
  function ShowtimesShown(t: Theater): (shown: seq<string>)
    ensures |shown| == if |t.showtimes| < 4 then |t.showtimes| else 4
    ensures forall i :: 0 <= i < |shown| ==> shown[i] == t.showtimes[i]
  {
    if |t.showtimes| <= ShownShowtimes then t.showtimes else t.showtimes[..ShownShowtimes]
  }
}
